=== FILE: README.md ===
# NanoAssembler, first pass and instruction front end, in Dafny

This project models two parts of the NanoVM assembler (`NanoAssembler.cpp`).

The first part is `readLines`, the first pass. For each physical source line, it:

- drops everything from the first `;` on, and skips the line if it starts with `;`;
- trims surrounding whitespace and skips a line left empty;
- binds `:name` lines to the index of the next instruction in the label table;
- turns every other line into an instruction record. The record's text has whitespace runs collapsed, commas removed and letters lower-cased. The record starts unassembled, with length 0 and the 1-based physical line number.

The second part is the front end of `assembleInstruction`:

- It splits the instruction text into words.
- It rejects an unknown mnemonic and a wrong operand count.
- For a two-operand instruction, it strips the `@` memory sigils and packs the first byte as `(dstReg << 5) | opcode`. It then builds the descriptor byte for a register source, which finishes the instruction at length 2. An immediate or label source gets an immediate descriptor, and an overflowing literal or an unknown symbol fails. A literal or label source is never finished: line 118 is the last thing the code does for it, and it sets neither `length` nor `assembled`, so the record stays unassembled with length 0 (`Deferred`).

Modules:

- `Text` (`text.dfy`) holds the character-level transforms, each written as an explicit recursive function:
  - trim (`^\s+|\s+$`);
  - collapse (`\s{2,}` → one space);
  - comma removal and `::tolower`;
  - the word splitting of `std::istream_iterator<std::string>`.

  One reference notion ties them together: the word sequence `Tokens`. Trimming and collapsing keep the words, comma removal strips commas from every word and drops comma-only words, and lower-casing lower-cases each word.
- `Reader` (`reader.dfy`) classifies a line (`ClassifyLine`) and folds the classified lines into the instruction sequence and the label table (`ReadLines`, and the loop `ReadLinesLoop` that follows the source's `while (getline)` loop).
- `Encoder` (`encoder.dfy`) models `assembleInstruction` as the outcome type `Assembled | Deferred | Unencoded | Failed`. The `Mapper` tables (opcodes, registers, the `mapImmediate` sizing function) and the five descriptor constants are parameters. The encoder relies on nothing about them except that registers and opcodes are bytes, and that `mapImmediate` returns -1 for a non-literal, -2 for an overflowing literal, and size bits otherwise. The decoding lemmas add explicit assumptions: 3-bit registers, 5-bit opcodes, and memory flags that share no bits with anything else (`Separable`). Reading the size or the kind back from an immediate descriptor also needs the size bits to stay clear of the flags or of the kind bits, which a label's all-ones value never does. Telling a register source from a literal source also needs `Type::Reg` and `Type::Immediate` to differ and to share no bits with `SRC_SIZE`, the flags or the register bits (`DistinctKinds`).

Behaviour of the code that a reader may not expect:

- **Double whitespace can survive.** Commas are removed after whitespace runs are collapsed, so `a , b` becomes `a  b`, with two spaces (`Text.CommaLeavesDoubleSpace`). What holds is that the collapsed text has no two whitespace characters in a row, and that the words are unchanged apart from commas and case.
- **A comma alone does not separate operands.** Commas are deleted, not replaced by whitespace, so `mov reg0,reg1` (the example in the comment at line 61) becomes `mov reg0reg1`, with one operand, and a two-operand `mov` rejects it (`Encoder.MovWithCommaMismatch`, `Encoder.CommaJoinedOperandsMismatch`). Operands must be separated by whitespace, with or without a comma.
- **Label names are not case-folded.** Labels are also not stripped of commas. Because every operand word is lower case, a label whose name has an upper-case letter can never be referenced (`Encoder.UpperCaseLabelUnused`).
- **A single whitespace character is kept.** The regular expression only replaces runs of two or more, so a lone tab inside a line stays a tab.
- **Inconsistent return values.** An unknown destination register returns `false` (0). The other failures return -1. A successful two-operand call runs off the end of the function without a `return`.
- **Line 118 writes to the wrong place.** It assigns into `instructionBytes[1]`, the second instruction record of the program. The model stores the immediate descriptor as byte 1 of the current instruction, which is the evident intent. The `-1` that `mapImmediate` returns for a label is or'ed into that byte as a C `int`, so a label source gets descriptor `0xFF` (`Encoder.LabelDescriptorAllOnes`). Those bits include the kind bits, so a label source's descriptor can equal a register source's (`Encoder.LabelDescriptorMayMatchRegister`). The model keeps this as written.
- **No halt instruction, no label resolution.** The code appends no halt instruction, and nothing in it resolves label references over several rounds.

## Model

| member | source | states |
|---|---|---|
| Text.ToLower | NanoAssembler/NanoAssembler.cpp:42 | the result is never an upper-case letter; only `A`..`Z` change, each to the same letter in lower case; whitespace and commas are unaffected |
| Text.Trim | NanoAssembler/NanoAssembler.cpp:30 | the result is empty exactly when the line is all whitespace, and otherwise neither starts nor ends with whitespace |
| Text.TrimKeepsMiddle | NanoAssembler/NanoAssembler.cpp:30 | trimming removes only the leading and trailing whitespace: the result is one stretch of the line with nothing but whitespace before and after it |
| Text.TrimWords | NanoAssembler/NanoAssembler.cpp:30 | trimming never changes the words of a line |
| Text.Collapse | NanoAssembler/NanoAssembler.cpp:40 | the result has no two whitespace characters in a row, is no longer than the input, and starts with whitespace exactly when the input does |
| Text.CollapseHead | NanoAssembler/NanoAssembler.cpp:40 | a leading run of two or more whitespace characters becomes `' '`; a single leading whitespace character, or a non-whitespace one, is kept as it is |
| Text.CollapseAppend | NanoAssembler/NanoAssembler.cpp:40 | a cut right after a non-whitespace character splits no run, so the two sides collapse independently |
| Text.LoneSpaceKept | NanoAssembler/NanoAssembler.cpp:40 | a single whitespace character between two words is kept unchanged, so a lone tab stays a tab |
| Text.RunBecomesSpace | NanoAssembler/NanoAssembler.cpp:40 | a run of two or more whitespace characters between two words becomes exactly one space |
| Text.CollapseWords | NanoAssembler/NanoAssembler.cpp:40 | collapsing whitespace runs never changes the words of a line |
| Text.RemoveCommas | NanoAssembler/NanoAssembler.cpp:41 | the result holds no comma and holds every other character of the input, and nothing else |
| Text.RemoveCommasAppend | NanoAssembler/NanoAssembler.cpp:41 | removing commas from a concatenation removes them from each part, so the other characters keep their order and their number |
| Text.RemoveCommasChar | NanoAssembler/NanoAssembler.cpp:41 | a single character is dropped exactly when it is a comma |
| Text.RemoveCommasWords | NanoAssembler/NanoAssembler.cpp:41 | removing commas removes them from each word and drops the words that were only commas, keeping word order |
| Text.LowerWords | NanoAssembler/NanoAssembler.cpp:42 | lower-casing the text lower-cases each word and changes nothing else about the words |
| Text.Normalize | NanoAssembler/NanoAssembler.cpp:40-42 | instruction text never holds a comma or an upper-case letter |
| Text.NormalizeWords | NanoAssembler/NanoAssembler.cpp:40-42 | the words of the instruction text are the words of the trimmed line with commas removed, comma-only words dropped, and lower-cased; a comma therefore separates operands only when whitespace stands next to it, and between two words it joins them into one |
| Text.CommaLeavesDoubleSpace | NanoAssembler/NanoAssembler.cpp:40-41 | the text `a , b` becomes `a  b`, which holds two spaces in a row |
| Text.CommaJoinsWords | NanoAssembler/NanoAssembler.cpp:40-42 | two comma-free words joined by a bare comma come out as one word, their lower-cased concatenation |
| Text.CommaJoinsOperands | NanoAssembler/NanoAssembler.cpp:40-42 | a line `mn x,y` has exactly the two words `mn` and `xy`, lower-cased |
| Text.Tokens | NanoAssembler/NanoAssembler.cpp:51-52 | every extracted word is non-empty and free of whitespace, and the words concatenated give the line without its whitespace |
| Text.TokensAtSpace | NanoAssembler/NanoAssembler.cpp:51-52 | a whitespace character always ends a word: the words of `x`, a whitespace character, then `y` are the words of `x` followed by those of `y` |
| Text.TokensOfWord | NanoAssembler/NanoAssembler.cpp:51-52 | a non-empty stretch without whitespace is exactly one word |
| Text.TokensOfSpace | NanoAssembler/NanoAssembler.cpp:51-52 | an empty or all-whitespace text has no words |
| Text.Tokenize | NanoAssembler/NanoAssembler.cpp:51-52 | a character-by-character scan that flushes the current word at each whitespace character yields exactly the word sequence |
| Reader.CommentStart | NanoAssembler/NanoAssembler.cpp:24-25 | the result is the position of the first `;`, or the line's length when there is none |
| Reader.ClassifyLineShape | NanoAssembler/NanoAssembler.cpp:24-42 | a line starting with `;`, or with only whitespace before its comment, yields nothing; a label's name is non-empty, does not end in whitespace, and with `:` in front is the trimmed line; an instruction's text has no comma and no upper-case letter, and its words are the normalised words of the line before its comment |
| Reader.ClassifyLineCases | NanoAssembler/NanoAssembler.cpp:24-42 | a line yields nothing exactly when only whitespace precedes its first `;` (a line starting with `;` included); it is a label exactly when its trimmed part before the comment is `:` followed by at least one character; every other line is an instruction |
| Reader.CommentIgnored | NanoAssembler/NanoAssembler.cpp:24-29 | whatever follows the first `;` has no effect on how the line is classified |
| Reader.LabelKeepsSpelling | NanoAssembler/NanoAssembler.cpp:35-38 | `:name` binds `name` exactly as written, upper-case letters and commas included |
| Reader.LoneColonIsCode | NanoAssembler/NanoAssembler.cpp:35-43 | a lone `:` is not a label but an instruction with text `:` |
| Reader.CommaLineIsEmptyCode | NanoAssembler/NanoAssembler.cpp:40-43 | a line holding only a comma becomes an instruction with empty text |
| Reader.ReadLinesLoop | NanoAssembler/NanoAssembler.cpp:15-44 | the source's loop, with its running line counter and its `continue`s, builds the same instructions and label table as the line-by-line fold |
| Reader.ReadLines | NanoAssembler/NanoAssembler.cpp:17-44 | there are no more instructions than lines; each instruction comes from an instruction line, carries its 1-based number and normalised text, and starts unassembled with length 0; line numbers increase along the sequence; every label points at or before the end of the instruction sequence |
| Reader.InstructionCount | NanoAssembler/NanoAssembler.cpp:37-43 | exactly one instruction is emitted per instruction line |
| Reader.LabelsInRange | NanoAssembler/NanoAssembler.cpp:35-38 | every label is bound to a position between 0 and the number of instructions, both included |
| Reader.InstructionsFromLines | NanoAssembler/NanoAssembler.cpp:17-43 | every instruction carries the 1-based number of an instruction line and that line's text, starts unassembled with length 0, and line numbers strictly increase along the sequence |
| Reader.EveryCodeLineEmitted | NanoAssembler/NanoAssembler.cpp:17-43 | an instruction line numbered `n + 1` produces the instruction at the position equal to the number of instruction lines before it; blank, comment and label lines still count towards line numbers |
| Reader.LabelsDefined | NanoAssembler/NanoAssembler.cpp:35-38 | a name is in the label table exactly when some line defines it |
| Reader.LastDefinitionWins | NanoAssembler/NanoAssembler.cpp:37 | the last definition of a name binds it to the number of instructions before that definition, overwriting earlier ones |
| Reader.InstructionWordsNormal | NanoAssembler/NanoAssembler.cpp:40-42 | no word of any emitted instruction holds an upper-case letter or a comma |
| Encoder.ToByte | NanoAssembler/NanoAssembler.cpp:118 | an `int` stored in an `unsigned char` keeps values 0..255 and turns -1 into 0xFF |
| Encoder.StripSigil | NanoAssembler/NanoAssembler.cpp:74-81 | the memory flag is set exactly when the word starts with `@`, and then the word is the `@` followed by the operand; otherwise the operand is the word |
| Encoder.FirstByte | NanoAssembler/NanoAssembler.cpp:89 | with a 3-bit register and a 5-bit opcode, the high three bits give back the register and the low five the opcode |
| Encoder.RegisterDescriptor | NanoAssembler/NanoAssembler.cpp:94 | with separable constants and a 3-bit register, the descriptor gives back the source register and both memory flags |
| Encoder.RegisterDescriptorDecodes | NanoAssembler/NanoAssembler.cpp:94 | with the flags and the register cleared, a register descriptor is `Type::Reg` or-ed with `SRC_SIZE`; with distinct kinds its kind bits are `Type::Reg` |
| Encoder.ImmediateDescriptor | NanoAssembler/NanoAssembler.cpp:118 | the C `int` size -1 (a label) turns the whole descriptor into 0xFF |
| Encoder.SizedDescriptor | NanoAssembler/NanoAssembler.cpp:118 | an all-ones size gives 0xFF; with separable constants, size bits clear of the memory flags leave both flags recoverable |
| Encoder.SizedDescriptorDecodes | NanoAssembler/NanoAssembler.cpp:118 | under `Separable`, and when the size bits stay clear of the memory flags, an immediate descriptor with the flags cleared is `Type::Immediate` or-ed with the size; with distinct kinds, and size bits clear of the kind bits, its kind bits are `Type::Immediate` |
| Encoder.DescriptorsDiffer | NanoAssembler/NanoAssembler.cpp:94-118 | with distinct kinds, no register descriptor equals an immediate descriptor whose size bits are clear of the kind bits, whatever the flags; a label source never meets that condition |
| Encoder.LabelDescriptorMayMatchRegister | NanoAssembler/NanoAssembler.cpp:94-118 | a layout with distinct kinds in which a label source's all-ones descriptor equals a register source's descriptor |
| Encoder.AssembleInstruction | NanoAssembler/NanoAssembler.cpp:50-119 | each outcome happens exactly when its condition holds. An unknown mnemonic fails. A known one with the wrong operand count fails. An instruction whose mnemonic takes any number of operands other than two passes unencoded. A non-register destination fails. A register source finishes at two bytes. Otherwise the source fails with an unknown symbol or an overflow as `mapImmediate` and the label table decide, or is deferred with two bytes |
| Encoder.ReturnValue | NanoAssembler/NanoAssembler.cpp:56-116 | a value is returned exactly on failure; it is 0 for an unknown destination register and -1 for every other failure |
| Encoder.ReturnValues | NanoAssembler/NanoAssembler.cpp:56-116 | an unknown mnemonic, a wrong operand count, an overflowing literal and an unknown symbol return -1; an unknown destination register returns 0 |
| Encoder.Record | NanoAssembler/NanoAssembler.cpp:89-97 | the record keeps its line number and text; `assembled` becomes true only on a finished encoding and is never reset; a finished encoding stores its bytes and length, and anything else keeps the length |
| Encoder.AssembleRecord | NanoAssembler/NanoAssembler.cpp:54-97 | an unassembled instruction becomes assembled exactly when it is a two-operand instruction with register destination and register source, and then has length 2; a rejected instruction is left unchanged |
| Encoder.RegisterFormDecodes | NanoAssembler/NanoAssembler.cpp:89-96 | the two bytes of a finished instruction give back its mnemonic's opcode, both register indices, and whether each operand carried `@` |
| Encoder.RegisterFormKind | NanoAssembler/NanoAssembler.cpp:94 | under `Separable` and with 3-bit registers, the descriptor of a finished instruction gives back `Type::Reg` or-ed with `SRC_SIZE` once flags and register are cleared; with distinct kinds, its kind bits are `Type::Reg` |
| Encoder.LiteralFormDecodes | NanoAssembler/NanoAssembler.cpp:89-118 | the two bytes of a literal-source instruction give back the opcode, the destination register and both `@` marks, when the size bits stay clear of the memory flags |
| Encoder.LiteralFormSize | NanoAssembler/NanoAssembler.cpp:101-118 | under `Separable`, and when the size bits stay clear of the memory flags, the descriptor of a literal-source instruction gives back `Type::Immediate` or-ed with the size once the flags are cleared |
| Encoder.LiteralFormKind | NanoAssembler/NanoAssembler.cpp:101-118 | with distinct kinds, and when the size bits stay clear of the kind bits, the kind bits of a literal-source descriptor are `Type::Immediate` |
| Encoder.LabelDescriptorAllOnes | NanoAssembler/NanoAssembler.cpp:101-118 | a deferred non-literal source is a known label, and its descriptor byte is 0xFF |
| Encoder.UpperCaseLabelUnused | NanoAssembler/NanoAssembler.cpp:104-108 | for normalised text, removing a label whose name holds an upper-case letter never changes the outcome |
| Encoder.CommaJoinedOperandsMismatch | NanoAssembler/NanoAssembler.cpp:61-66 | for a mnemonic that takes two operands, `mn x,y` is rejected as an operand-count mismatch: two expected, one received |
| Encoder.MovWithCommaMismatch | NanoAssembler/NanoAssembler.cpp:61-66 | the comment's example `mov reg0,reg1` reads as `mov reg0reg1` and is rejected with two operands expected and one received |

## Left out

- File reading, `main`, the output file and `system("pause")`: the model starts from the sequence of lines and ends at the per-instruction outcome.
- Console diagnostics. The source prints the instruction index `i`, not the line number, and the model drops `i` altogether.
- The zero- and one-operand branches (lines 121-163). They use an undeclared `opcode`, push bytes into a vector of instruction records, and lack a closing brace. The model returns `Unencoded` once the checks pass for every mnemonic that does not take two operands; one taking three or more reaches none of the branches at lines 70, 121 and 125.
- `assemble` (lines 165-188). It uses undeclared variables and contains no multi-round label resolution, so there is nothing to check a resolver against.
- The internals of `Mapper`: the opcode and register tables, literal parsing, the payload bytes `mapImmediate` writes, and its unused `length` out-parameter. All of them are parameters or left out.
- Encoder.AssembleInstruction: requires at least one word, because the source reads `parts[0]` of an empty word list, which is undefined. A line holding only commas is emitted with empty text and reaches this case.
- The `opcode` and `operands` fields of the instruction record: `mapOpcode` fills them in on every known mnemonic (line 56). The model keeps the catalog entry in the outcome (`Unencoded`, and `AssembleInstruction`'s contract reads it from the catalog) instead of storing it in the record.
- Encoder.Record: leaves the record unchanged on failure. In the source, `mapOpcode` has already set the opcode and operand-count fields by then, and a failure after line 89 has already written byte 0. A failure aborts the run, so these partial writes are not modelled.
- Reader.ReadLines: line numbers and label indices are unbounded. The source stores both in an `unsigned int`, which would wrap after 2^32 lines.
- Text.ToLower: models characters, not bytes, and leaves every character outside `A`..`Z` unchanged. In the source, a byte at or above 0x80 reaches `::tolower` as a negative `char`, which is undefined behaviour; the model gives those bytes no meaning of their own.

=== FILE: encoder.dfy ===
/**
 The front end of `assembleInstruction` and its two-operand branch: split the
 instruction text into words, reject an unknown mnemonic or a wrong number of
 operands, and for a two-operand instruction pack the first byte from the
 destination register and the opcode and the descriptor byte from the kind
 of the source operand and the two memory flags.

 The `Mapper` tables and the descriptor bit constants are defined outside
 the assembler's own file, so both are parameters here: `Mapper` holds the
 opcode table, the register table and the literal-sizing function, and
 `Layout` holds the five descriptor constants.
 */
module Encoder {
  import opened Text
  import opened Reader

  datatype Option<T> = None | Some(value: T)

  /** A catalog entry: the opcode and the number of operands the mnemonic
      takes. */
  datatype Opcode = Opcode(code: bv8, operands: nat)

  /** `mapOpcode`, `mapRegister` and `mapImmediate`. The last returns -1
      for a word that is not a literal, -2 for a literal too wide for 64
      bits, and otherwise the size bits of the literal's width class. */
  datatype Mapper = Mapper(
    opcodes: map<string, Opcode>,
    registers: map<string, bv8>,
    mapImmediate: string -> int)

  /** `Type::Reg`, `Type::Immediate`, `SRC_SIZE`, `SRC_MEM` and `DST_MEM`. */
  datatype Layout = Layout(reg: bv8, immediate: bv8, srcSize: bv8, srcMem: bv8, dstMem: bv8)

  datatype Failure =
    | UnknownMnemonic(mnemonic: string)
    | ArityMismatch(mnemonic: string, expected: nat, received: nat)
    | UnknownRegister(token: string)
    | LiteralOverflow(token: string)
    | UnknownSymbol(token: string)

  /** What one call does with one instruction. */
  datatype Outcome =
    | Assembled(bytes: seq<bv8>, length: nat) // finished: bytes and length are final
    | Deferred(bytes: seq<bv8>)               // first and descriptor byte written, not finished
    | Unencoded(opcode: Opcode)               // passed the checks; does not take two operands
    | Failed(failure: Failure)

  /** Register indices fit in three bits. */
  predicate ThreeBitRegisters(m: Mapper) {
    forall name :: name in m.registers ==> m.registers[name] < 8
  }

  /** Opcodes fit in five bits. */
  predicate FiveBitOpcodes(m: Mapper) {
    forall name :: name in m.opcodes ==> m.opcodes[name].code < 32
  }

  /** The memory flags are non-zero, share no bit with each other, and
      share none with the kind and size constants or with a register index
      in the three low bits, which those constants leave free. */
  predicate Separable(l: Layout) {
    && l.srcMem != 0 && l.dstMem != 0
    && l.srcMem & l.dstMem == 0
    && (l.srcMem | l.dstMem) & (l.reg | l.srcSize | l.immediate | 7) == 0
    && (l.reg | l.srcSize) & 7 == 0
  }

  /** The two operand kinds can be told apart: `Type::Reg` and
      `Type::Immediate` differ, and their bits are shared with neither the
      register-size constant, the memory flags, nor the three low bits. */
  predicate DistinctKinds(l: Layout) {
    && l.reg != l.immediate
    && (l.reg | l.immediate) & (l.srcSize | l.srcMem | l.dstMem | 7) == 0
  }

  /** The operand-kind bits of a descriptor byte. */
  function KindOf(l: Layout, d: bv8): bv8 {
    d & (l.reg | l.immediate)
  }

  /** The conversion of a C `int` to `unsigned char`: modulo 256. */
  function ToByte(v: int): (b: bv8)
    ensures 0 <= v < 256 ==> b as int == v
    ensures v == -1 ==> b == 0xFF
  {
    SmallByte(v);
    AllOnesByte(v);
    (v % 256) as bv8
  }

  lemma SmallByte(v: int)
    ensures 0 <= v < 256 ==> ((v % 256) as bv8) as int == v
  {
  }

  lemma AllOnesByte(v: int)
    ensures v == -1 ==> (v % 256) as bv8 == 0xFF
  {
  }

  /** A leading `@` marks an operand as a memory address; it is removed. */
  function StripSigil(word: string): (res: (string, bool))
    ensures res.1 <==> |word| > 0 && word[0] == '@'
    ensures res.1 ==> [word[0]] + res.0 == word
    ensures !res.1 ==> res.0 == word
  {
    if |word| > 0 && word[0] == '@' then (word[1..], true) else (word, false)
  }

  /** The first byte: destination register in the three high bits, opcode in
      the five low ones. */
  function FirstByte(dst: bv8, code: bv8): (b: bv8)
    ensures dst < 8 && code < 32 ==> DestinationOf(b) == dst && OpcodeOf(b) == code
  {
    (dst << 5) | code
  }

  function DestinationOf(b: bv8): bv8 {
    b >> 5
  }

  function OpcodeOf(b: bv8): bv8 {
    b & 0x1F
  }

  function MemoryFlags(l: Layout, dstMem: bool, srcMem: bool): bv8 {
    (if srcMem then l.srcMem else 0) | (if dstMem then l.dstMem else 0)
  }

  predicate DstIsMemory(l: Layout, d: bv8) {
    d & l.dstMem != 0
  }

  predicate SrcIsMemory(l: Layout, d: bv8) {
    d & l.srcMem != 0
  }

  function SourceRegisterOf(d: bv8): bv8 {
    d & 7
  }

  /** The descriptor byte for a register source. */
  function RegisterDescriptor(l: Layout, src: bv8, dstMem: bool, srcMem: bool): (d: bv8)
    ensures Separable(l) && src < 8 ==>
              && SourceRegisterOf(d) == src
              && (DstIsMemory(l, d) <==> dstMem)
              && (SrcIsMemory(l, d) <==> srcMem)
  {
    FlagsSurvive(l, l.reg | l.srcSize | src, dstMem, srcMem);
    l.reg | l.srcSize | src | MemoryFlags(l, dstMem, srcMem)
  }

  /** The rest of a register descriptor: with the flags and the register
      cleared, what is left is `Type::Reg | SRC_SIZE`, and its kind bits are
      `Type::Reg`. */
  lemma RegisterDescriptorDecodes(l: Layout, src: bv8, dstMem: bool, srcMem: bool)
    ensures Separable(l) && src < 8 ==>
              RegisterDescriptor(l, src, dstMem, srcMem) & !(l.srcMem | l.dstMem | 7) == l.reg | l.srcSize
    ensures Separable(l) && DistinctKinds(l) && src < 8 ==>
              KindOf(l, RegisterDescriptor(l, src, dstMem, srcMem)) == l.reg
  {
    RegisterRest(l, src, dstMem, srcMem);
  }

  /** The descriptor byte for an immediate or label source, with the value
      `mapImmediate` returned or'ed in as a C `int`. For a label that value
      is -1, whose bits are all set, so the byte is 0xFF whatever the flags. */
  function ImmediateDescriptor(l: Layout, size: int, dstMem: bool, srcMem: bool): (d: bv8)
    ensures size == -1 ==> d == 0xFF
  {
    SizedDescriptor(l, ToByte(size), dstMem, srcMem)
  }

  /** The descriptor byte once the value has become a byte: size bits that
      stay clear of the memory flags leave both flags recoverable. */
  function SizedDescriptor(l: Layout, size: bv8, dstMem: bool, srcMem: bool): (d: bv8)
    ensures size == 0xFF ==> d == 0xFF
    ensures Separable(l) && size & (l.srcMem | l.dstMem) == 0 ==>
              (DstIsMemory(l, d) <==> dstMem) && (SrcIsMemory(l, d) <==> srcMem)
  {
    FlagsSurvive(l, l.immediate | size, dstMem, srcMem);
    l.immediate | size | MemoryFlags(l, dstMem, srcMem)
  }

  /** The rest of an immediate descriptor: with the flags cleared, what is
      left is `Type::Immediate` and the size, and its kind bits are
      `Type::Immediate`. */
  lemma SizedDescriptorDecodes(l: Layout, size: bv8, dstMem: bool, srcMem: bool)
    ensures Separable(l) && size & (l.srcMem | l.dstMem) == 0 ==>
              SizedDescriptor(l, size, dstMem, srcMem) & !(l.srcMem | l.dstMem) == l.immediate | size
    ensures DistinctKinds(l) && size & (l.reg | l.immediate) == 0 ==>
              KindOf(l, SizedDescriptor(l, size, dstMem, srcMem)) == l.immediate
  {
    SizedRest(l, size, dstMem, srcMem);
  }

  /** Or'ing the memory flags into a byte that is clear of them keeps them
      readable. */
  lemma FlagsSurvive(l: Layout, rest: bv8, dstMem: bool, srcMem: bool)
    ensures l.srcMem != 0 && l.dstMem != 0 && l.srcMem & l.dstMem == 0 && rest & (l.srcMem | l.dstMem) == 0 ==>
              var d := rest | MemoryFlags(l, dstMem, srcMem);
              (DstIsMemory(l, d) <==> dstMem) && (SrcIsMemory(l, d) <==> srcMem)
  {
  }

  /** Clearing the flags and the register bits of a register descriptor
      leaves the kind and size constants; clearing all but the kind bits
      leaves `Type::Reg`. */
  lemma RegisterRest(l: Layout, src: bv8, dstMem: bool, srcMem: bool)
    ensures var d := l.reg | l.srcSize | src | MemoryFlags(l, dstMem, srcMem);
            Separable(l) && src < 8 ==> d & !(l.srcMem | l.dstMem | 7) == l.reg | l.srcSize
    ensures var d := l.reg | l.srcSize | src | MemoryFlags(l, dstMem, srcMem);
            Separable(l) && DistinctKinds(l) && src < 8 ==> KindOf(l, d) == l.reg
  {
  }

  /** Clearing the flags of an immediate descriptor leaves `Type::Immediate`
      and the size; clearing all but the kind bits leaves
      `Type::Immediate`. */
  lemma SizedRest(l: Layout, size: bv8, dstMem: bool, srcMem: bool)
    ensures var d := l.immediate | size | MemoryFlags(l, dstMem, srcMem);
            Separable(l) && size & (l.srcMem | l.dstMem) == 0 ==> d & !(l.srcMem | l.dstMem) == l.immediate | size
    ensures var d := l.immediate | size | MemoryFlags(l, dstMem, srcMem);
            DistinctKinds(l) && size & (l.reg | l.immediate) == 0 ==> KindOf(l, d) == l.immediate
  {
  }

  /** With distinct kinds, no register descriptor equals an immediate one
      whose size bits stay clear of the kind bits. */
  lemma DescriptorsDiffer(l: Layout, src: bv8, size: bv8, dstMem: bool, srcMem: bool, dstMem': bool, srcMem': bool)
    requires Separable(l) && DistinctKinds(l) && src < 8
    requires size & (l.reg | l.immediate) == 0
    ensures RegisterDescriptor(l, src, dstMem, srcMem) != SizedDescriptor(l, size, dstMem', srcMem')
  {
    SizedDescriptorDecodes(l, size, dstMem', srcMem');
    RegisterDescriptorDecodes(l, src, dstMem, srcMem);
  }

  /** The size bits of a label source are those of -1, all ones, so they
      meet the kind bits: even with distinct kinds, a label source's
      descriptor can equal a register source's. */
  lemma LabelDescriptorMayMatchRegister()
    ensures var l := Layout(0xC0, 0x80, 0x20, 0x08, 0x10);
            && Separable(l) && DistinctKinds(l)
            && RegisterDescriptor(l, 7, true, true) == ImmediateDescriptor(l, -1, false, false)
  {
  }

  /** The operand word `i` of a line, without its `@`. */
  function Operand(line: string, i: nat): string
    requires i < |Tokens(line)|
  {
    StripSigil(Tokens(line)[i]).0
  }

  /** Whether operand word `i` of a line carries the `@` sigil. */
  predicate IsMemoryOperand(line: string, i: nat)
    requires i < |Tokens(line)|
  {
    Tokens(line)[i][0] == '@'
  }

  /** The mnemonic is known and is followed by exactly as many operand
      words as the catalog says. */
  predicate ArityMatches(m: Mapper, line: string)
    requires Tokens(line) != []
  {
    Tokens(line)[0] in m.opcodes && m.opcodes[Tokens(line)[0]].operands == |Tokens(line)| - 1
  }

  /** A two-operand instruction that passed the up-front checks. */
  predicate TwoOperands(m: Mapper, line: string)
    requires Tokens(line) != []
  {
    ArityMatches(m, line) && m.opcodes[Tokens(line)[0]].operands == 2
  }

  /** `assembleInstruction` on one line of normalised text. */
  function AssembleInstruction(m: Mapper, l: Layout, line: string, labels: map<string, nat>): (r: Outcome)
    requires Tokens(line) != []
    ensures r.Failed? && r.failure.UnknownMnemonic? <==> Tokens(line)[0] !in m.opcodes
    ensures r.Failed? && r.failure.ArityMismatch? <==>
              Tokens(line)[0] in m.opcodes && !ArityMatches(m, line)
    ensures r.Unencoded? <==> ArityMatches(m, line) && !TwoOperands(m, line)
    ensures r.Failed? && r.failure.UnknownRegister? <==>
              TwoOperands(m, line) && Operand(line, 1) !in m.registers
    ensures r.Assembled? <==>
              TwoOperands(m, line) && Operand(line, 1) in m.registers && Operand(line, 2) in m.registers
    ensures r.Failed? && r.failure.UnknownSymbol? <==>
              && TwoOperands(m, line) && Operand(line, 1) in m.registers && Operand(line, 2) !in m.registers
              && m.mapImmediate(Operand(line, 2)) == -1 && Operand(line, 2) !in labels
    ensures r.Failed? && r.failure.LiteralOverflow? <==>
              && TwoOperands(m, line) && Operand(line, 1) in m.registers && Operand(line, 2) !in m.registers
              && m.mapImmediate(Operand(line, 2)) == -2
    ensures r.Assembled? ==> r.length == |r.bytes| == 2
    ensures r.Deferred? ==> |r.bytes| == 2
  {
    var parts := Tokens(line);
    if parts[0] !in m.opcodes then Failed(UnknownMnemonic(parts[0]))
    else
      var op := m.opcodes[parts[0]];
      if op.operands != |parts| - 1 then Failed(ArityMismatch(parts[0], op.operands, |parts| - 1))
      else if op.operands != 2 then Unencoded(op)
      else
        var (dst, dstMem) := StripSigil(parts[1]);
        var (src, srcMem) := StripSigil(parts[2]);
        if dst !in m.registers then Failed(UnknownRegister(dst))
        else
          var first := FirstByte(m.registers[dst], op.code);
          if src in m.registers then
            Assembled([first, RegisterDescriptor(l, m.registers[src], dstMem, srcMem)], 2)
          else
            var size := m.mapImmediate(src);
            if size == -1 && src !in labels then Failed(UnknownSymbol(src))
            else if size == -2 then Failed(LiteralOverflow(src))
            else Deferred([first, ImmediateDescriptor(l, size, dstMem, srcMem)])
  }

  /** The `int` the source function returns: -1 for every failure except an
      unknown destination register, where it returns `false`, that is 0. A
      call that does not fail runs off the end of the function without a
      `return`, so it has no defined value. */
  function ReturnValue(r: Outcome): (v: Option<int>)
    ensures v.Some? <==> r.Failed?
    ensures v.Some? ==> v.value <= 0 && (v.value == 0 <==> r.failure.UnknownRegister?)
    ensures v.Some? && !r.failure.UnknownRegister? ==> v.value == -1
  {
    match r
    case Failed(UnknownRegister(_)) => Some(0)
    case Failed(_) => Some(-1)
    case _ => None
  }

  /** The instruction record after the call: a finished encoding stores its
      bytes and length and sets `assembled`; a deferred one stores its two
      bytes only; anything else leaves the record as it was. */
  function Record(ins: Instruction, r: Outcome): (out: Instruction)
    ensures out.lineNumber == ins.lineNumber && out.line == ins.line
    ensures out.assembled <==> ins.assembled || r.Assembled?
    ensures r.Assembled? ==> out.length == r.length && out.bytecode == r.bytes
    ensures !r.Assembled? ==> out.length == ins.length
    ensures !r.Assembled? && !r.Deferred? ==> out == ins
  {
    match r
    case Assembled(bytes, length) => ins.(bytecode := bytes, length := length, assembled := true)
    case Deferred(bytes) => ins.(bytecode := bytes)
    case _ => ins
  }

  /** One call on one instruction record. */
  function AssembleRecord(m: Mapper, l: Layout, ins: Instruction, labels: map<string, nat>): (out: Instruction)
    requires Tokens(ins.line) != []
    ensures out.lineNumber == ins.lineNumber && out.line == ins.line
    ensures !ins.assembled ==>
              (out.assembled <==> TwoOperands(m, ins.line) && Operand(ins.line, 1) in m.registers
                                  && Operand(ins.line, 2) in m.registers)
    ensures out.assembled ==> ins.assembled || out.length == 2
    ensures !ArityMatches(m, ins.line) ==> out == ins
  {
    Record(ins, AssembleInstruction(m, l, ins.line, labels))
  }

  // ---------------------------------------------------------------------
  // Lemmas
  // ---------------------------------------------------------------------

  /** Decoding a finished two-register instruction gives back the opcode of
      its mnemonic, both register indices, and both `@` marks. */
  lemma RegisterFormDecodes(m: Mapper, l: Layout, line: string, labels: map<string, nat>)
    requires Tokens(line) != []
    requires ThreeBitRegisters(m) && FiveBitOpcodes(m) && Separable(l)
    requires AssembleInstruction(m, l, line, labels).Assembled?
    ensures var b := AssembleInstruction(m, l, line, labels).bytes;
      && OpcodeOf(b[0]) == m.opcodes[Tokens(line)[0]].code
      && DestinationOf(b[0]) == m.registers[Operand(line, 1)]
      && SourceRegisterOf(b[1]) == m.registers[Operand(line, 2)]
      && (DstIsMemory(l, b[1]) <==> IsMemoryOperand(line, 1))
      && (SrcIsMemory(l, b[1]) <==> IsMemoryOperand(line, 2))
  {
    var parts := Tokens(line);
    var dst := Operand(line, 1);
    var src := Operand(line, 2);
    assert m.registers[dst] < 8 && m.registers[src] < 8;
    assert m.opcodes[parts[0]].code < 32;
  }

  /** A register source also keeps its kind recoverable: with the flags and
      the register cleared, the descriptor is `Type::Reg | SRC_SIZE`, and
      with distinct kinds its kind bits are `Type::Reg`, so it cannot be
      mistaken for a literal source. */
  lemma RegisterFormKind(m: Mapper, l: Layout, line: string, labels: map<string, nat>)
    requires Tokens(line) != []
    requires ThreeBitRegisters(m) && Separable(l)
    requires AssembleInstruction(m, l, line, labels).Assembled?
    ensures AssembleInstruction(m, l, line, labels).bytes[1] & !(l.srcMem | l.dstMem | 7) == l.reg | l.srcSize
    ensures DistinctKinds(l) ==> KindOf(l, AssembleInstruction(m, l, line, labels).bytes[1]) == l.reg
  {
    AssembledBytes(m, l, line, labels);
    assert m.registers[Operand(line, 2)] < 8;
    RegisterDescriptorDecodes(l, m.registers[Operand(line, 2)], IsMemoryOperand(line, 1), IsMemoryOperand(line, 2));
  }

  /** The descriptor byte of a finished instruction. */
  lemma AssembledBytes(m: Mapper, l: Layout, line: string, labels: map<string, nat>)
    requires Tokens(line) != []
    requires AssembleInstruction(m, l, line, labels).Assembled?
    ensures TwoOperands(m, line) && Operand(line, 2) in m.registers
    ensures AssembleInstruction(m, l, line, labels).bytes[1] ==
              RegisterDescriptor(l, m.registers[Operand(line, 2)], IsMemoryOperand(line, 1), IsMemoryOperand(line, 2))
  {
  }

  /** A literal source keeps its mnemonic's opcode, the destination register
      and both `@` marks recoverable, provided its size bits stay clear of
      the memory flags. */
  lemma LiteralFormDecodes(m: Mapper, l: Layout, line: string, labels: map<string, nat>)
    requires Tokens(line) != []
    requires ThreeBitRegisters(m) && FiveBitOpcodes(m) && Separable(l)
    requires AssembleInstruction(m, l, line, labels).Deferred?
    requires ToByte(m.mapImmediate(Operand(line, 2))) & (l.srcMem | l.dstMem) == 0
    ensures var b := AssembleInstruction(m, l, line, labels).bytes;
      && OpcodeOf(b[0]) == m.opcodes[Tokens(line)[0]].code
      && DestinationOf(b[0]) == m.registers[Operand(line, 1)]
      && (DstIsMemory(l, b[1]) <==> IsMemoryOperand(line, 1))
      && (SrcIsMemory(l, b[1]) <==> IsMemoryOperand(line, 2))
  {
    var parts := Tokens(line);
    DeferredBytes(m, l, line, labels);
    assert m.registers[Operand(line, 1)] < 8;
    assert m.opcodes[parts[0]].code < 32;
  }

  /** A literal source keeps its kind and its size recoverable: with the
      memory flags cleared, the descriptor is `Type::Immediate` and the
      size. */
  lemma LiteralFormSize(m: Mapper, l: Layout, line: string, labels: map<string, nat>)
    requires Tokens(line) != []
    requires Separable(l)
    requires AssembleInstruction(m, l, line, labels).Deferred?
    requires ToByte(m.mapImmediate(Operand(line, 2))) & (l.srcMem | l.dstMem) == 0
    ensures AssembleInstruction(m, l, line, labels).bytes[1] & !(l.srcMem | l.dstMem) ==
              l.immediate | ToByte(m.mapImmediate(Operand(line, 2)))
  {
    DeferredBytes(m, l, line, labels);
    SizedDescriptorDecodes(l, ToByte(m.mapImmediate(Operand(line, 2))), IsMemoryOperand(line, 1), IsMemoryOperand(line, 2));
  }

  /** With distinct kinds, the kind bits of a literal source's descriptor
      are `Type::Immediate`, so it cannot be mistaken for a register
      source. */
  lemma LiteralFormKind(m: Mapper, l: Layout, line: string, labels: map<string, nat>)
    requires Tokens(line) != []
    requires DistinctKinds(l)
    requires AssembleInstruction(m, l, line, labels).Deferred?
    requires ToByte(m.mapImmediate(Operand(line, 2))) & (l.reg | l.immediate) == 0
    ensures KindOf(l, AssembleInstruction(m, l, line, labels).bytes[1]) == l.immediate
  {
    DeferredBytes(m, l, line, labels);
    SizedDescriptorDecodes(l, ToByte(m.mapImmediate(Operand(line, 2))), IsMemoryOperand(line, 1), IsMemoryOperand(line, 2));
  }

  /** The two bytes of a deferred instruction. */
  lemma DeferredBytes(m: Mapper, l: Layout, line: string, labels: map<string, nat>)
    requires Tokens(line) != []
    requires AssembleInstruction(m, l, line, labels).Deferred?
    ensures TwoOperands(m, line) && Operand(line, 1) in m.registers
    ensures AssembleInstruction(m, l, line, labels).bytes == [
              FirstByte(m.registers[Operand(line, 1)], m.opcodes[Tokens(line)[0]].code),
              SizedDescriptor(l, ToByte(m.mapImmediate(Operand(line, 2))), IsMemoryOperand(line, 1), IsMemoryOperand(line, 2))]
  {
  }

  /** A label source gets the descriptor 0xFF: the -1 that `mapImmediate`
      returns for a non-literal is or'ed into the byte, so the memory flags
      of such an instruction cannot be told apart. */
  lemma LabelDescriptorAllOnes(m: Mapper, l: Layout, line: string, labels: map<string, nat>)
    requires Tokens(line) != []
    requires AssembleInstruction(m, l, line, labels).Deferred?
    requires m.mapImmediate(Operand(line, 2)) == -1
    ensures Operand(line, 2) in labels
    ensures AssembleInstruction(m, l, line, labels).bytes[1] == 0xFF
  {
  }

  /** The source's return values: -1 for an unknown mnemonic or a wrong
      operand count, `false` (0) for an unknown destination register. */
  lemma ReturnValues(m: Mapper, l: Layout, line: string, labels: map<string, nat>)
    requires Tokens(line) != []
    ensures !ArityMatches(m, line) ==> ReturnValue(AssembleInstruction(m, l, line, labels)) == Some(-1)
    ensures TwoOperands(m, line) && Operand(line, 1) !in m.registers ==>
              ReturnValue(AssembleInstruction(m, l, line, labels)) == Some(0)
    ensures && TwoOperands(m, line) && Operand(line, 1) in m.registers && Operand(line, 2) !in m.registers
            && m.mapImmediate(Operand(line, 2)) == -2 ==>
              ReturnValue(AssembleInstruction(m, l, line, labels)) == Some(-1)
    ensures && TwoOperands(m, line) && Operand(line, 1) in m.registers && Operand(line, 2) !in m.registers
            && m.mapImmediate(Operand(line, 2)) == -1 && Operand(line, 2) !in labels ==>
              ReturnValue(AssembleInstruction(m, l, line, labels)) == Some(-1)
  {
  }

  /** The labels table is only consulted for a source word that is neither a
      register nor a literal, and every word of normalised text is in lower
      case, so a label whose name holds an upper-case letter changes nothing. */
  lemma UpperCaseLabelUnused(m: Mapper, l: Layout, line: string, labels: map<string, nat>, name: string)
    requires Tokens(line) != [] && IsNormal(line)
    requires exists i :: 0 <= i < |name| && IsUpper(name[i])
    ensures AssembleInstruction(m, l, line, labels) == AssembleInstruction(m, l, line, labels - {name})
  {
    var parts := Tokens(line);
    NormalTextNormalWords(line);
    if TwoOperands(m, line) {
      var src := Operand(line, 2);
      assert IsNormal(parts[2]);
      assert IsNormal(src) by {
        if IsMemoryOperand(line, 2) {
          assert src == parts[2][1..];
        }
      }
      assert src != name by {
        var i :| 0 <= i < |name| && IsUpper(name[i]);
        assert |src| <= i || src[i] != name[i];
      }
      assert src in labels <==> src in labels - {name};
    }
  }

  /** A comma is deleted, not read as a separator: `mn x,y` reaches the
      encoder as `mn` and one operand word, so a two-operand mnemonic
      rejects it for a wrong operand count. */
  lemma CommaJoinedOperandsMismatch(m: Mapper, l: Layout, mn: string, x: string, y: string, labels: map<string, nat>)
    requires mn != [] && NoSpace(mn) && ',' !in mn
    requires x != [] && NoSpace(x) && ',' !in x
    requires y != [] && NoSpace(y) && ',' !in y
    requires Lower(mn) in m.opcodes && m.opcodes[Lower(mn)].operands == 2
    ensures var line := Normalize(mn + [' '] + x + [','] + y);
            Tokens(line) == [Lower(mn), Lower(x + y)] &&
            AssembleInstruction(m, l, line, labels) == Failed(ArityMismatch(Lower(mn), 2, 1))
  {
    CommaJoinsOperands(mn, x, y);
  }

  /** The comment's own example, `mov reg0,reg1`, is read as `mov reg0reg1`:
      one operand where `mov` takes two. */
  lemma MovWithCommaMismatch(m: Mapper, l: Layout, labels: map<string, nat>)
    requires "mov" in m.opcodes && m.opcodes["mov"].operands == 2
    ensures var line := Normalize("mov reg0,reg1");
            Tokens(line) == ["mov", "reg0reg1"] &&
            AssembleInstruction(m, l, line, labels) == Failed(ArityMismatch("mov", 2, 1))
  {
    assert "mov reg0,reg1" == "mov" + [' '] + "reg0" + [','] + "reg1";
    assert Lower("mov") == "mov";
    assert Lower("reg0" + "reg1") == "reg0reg1";
    CommaJoinedOperandsMismatch(m, l, "mov", "reg0", "reg1", labels);
  }
}

=== FILE: reader.dfy ===
/**
 The first pass of the assembler, `readLines`: every physical source line is
 classified as nothing (a comment or a blank line), a label definition, or an
 instruction, and the instructions and the label table are built from them.

 Reading the file is left out; the pass starts from the sequence of lines.
 */
module Reader {
  import opened Text

  /** One instruction record. The first pass fills in the line number and the
      normalised text and leaves the instruction unassembled with length 0;
      the encoder fills in the rest. */
  datatype Instruction = Instruction(
    lineNumber: nat,
    line: string,
    assembled: bool,
    length: nat,
    bytecode: seq<bv8>)

  /** What one physical line contributes. */
  datatype LineKind =
    | Blank               // a comment line, or nothing left after trimming
    | Label(name: string) // `:name`, bound to the next instruction
    | Code(text: string)  // an instruction, normalised

  datatype Program = Program(instructions: seq<Instruction>, labels: map<string, nat>)

  /** The position `line.find(";")` reports: the first `;`, or `|s|` when
      there is none. */
  function CommentStart(s: string): (n: nat)
    ensures n <= |s|
    ensures ';' !in s[..n]
    ensures n < |s| ==> s[n] == ';'
  {
    if s == [] || s[0] == ';' then 0 else 1 + CommentStart(s[1..])
  }

  /** The part of a line before its comment. */
  function CodePart(s: string): string {
    s[..CommentStart(s)]
  }

  /** Classifies one physical line. */
  function ClassifyLine(raw: string): LineKind {
    var n := CommentStart(raw);
    if n < |raw| && n == 0 then Blank
    else
      var t := Trim(raw[..n]);
      if t == [] then Blank
      else if t[0] == ':' && |t| > 1 then Label(t[1..])
      else Code(Normalize(t))
  }

  /** What each kind of line looks like: a line starting with `;` or with
      nothing but whitespace before its comment is blank; a label line is
      `:` and a non-empty name after trimming; an instruction's text holds
      no comma and no upper-case letter, and its words are those of the
      line before its comment with commas removed, comma-only words
      dropped, and lower-cased. */
  lemma ClassifyLineShape(raw: string)
    ensures |raw| > 0 && raw[0] == ';' ==> ClassifyLine(raw) == Blank
    ensures AllSpace(CodePart(raw)) ==> ClassifyLine(raw) == Blank
    ensures ClassifyLine(raw).Label? ==>
              var name := ClassifyLine(raw).name;
              name != [] && !IsSpace(name[|name| - 1]) && [':'] + name == Trim(CodePart(raw))
    ensures ClassifyLine(raw).Code? ==> IsNormal(ClassifyLine(raw).text)
    ensures ClassifyLine(raw).Code? ==>
              Tokens(ClassifyLine(raw).text) == NormalWords(Tokens(CodePart(raw)))
  {
    var n := CommentStart(raw);
    var t := Trim(raw[..n]);
    TrimWords(raw[..n]);
    NormalizeWords(t);
    if t != [] && t[0] == ':' && |t| > 1 {
      assert t == [':'] + t[1..];
    }
  }

  /** The three kinds of line, each exactly when its condition holds: a
      line is blank exactly when nothing but whitespace precedes its
      comment (a line starting with `;` has nothing before it), and it is a
      label exactly when, after trimming, it is `:` followed by at least one
      character. Every other line is an instruction. */
  lemma ClassifyLineCases(raw: string)
    ensures ClassifyLine(raw) == Blank <==> AllSpace(CodePart(raw))
    ensures ClassifyLine(raw).Label? <==> (var t := Trim(CodePart(raw)); |t| > 1 && t[0] == ':')
    ensures ClassifyLine(raw).Code? <==>
              !AllSpace(CodePart(raw)) && !(var t := Trim(CodePart(raw)); |t| > 1 && t[0] == ':')
  {
    var n := CommentStart(raw);
    if n < |raw| && n == 0 {
      assert CodePart(raw) == [];
    }
  }

  /** What one line does to the program built so far; `lineNumber` is the
      line's 1-based position in the file. */
  function Step(p: Program, kind: LineKind, lineNumber: nat): Program {
    match kind
    case Blank => p
    case Label(name) => p.(labels := p.labels[name := |p.instructions|])
    case Code(text) => p.(instructions := p.instructions + [Instruction(lineNumber, text, false, 0, [])])
  }

  /** The classification of every line of a file. */
  function Kinds(lines: seq<string>): (ks: seq<LineKind>)
    ensures |ks| == |lines|
    ensures forall n :: 0 <= n < |lines| ==> ks[n] == ClassifyLine(lines[n])
  {
    seq(|lines|, n requires 0 <= n < |lines| => ClassifyLine(lines[n]))
  }

  /** The program built from classified lines, the `k`-th of which is line
      number `k + 1`. */
  function Build(kinds: seq<LineKind>): Program
    decreases |kinds|
  {
    if kinds == [] then Program([], map[])
    else Step(Build(kinds[..|kinds| - 1]), kinds[|kinds| - 1], |kinds|)
  }

  /** The first pass over the whole file, line by line: each instruction
      comes from an instruction line, carries that line's 1-based number and
      normalised text, and starts unassembled with length 0; the
      instructions keep the order of their lines; and every label points at
      or before the end of the instruction sequence. */
  function ReadLines(lines: seq<string>): (p: Program)
    ensures |p.instructions| <= |lines|
    ensures forall j :: 0 <= j < |p.instructions| ==>
              && 1 <= p.instructions[j].lineNumber <= |lines|
              && ClassifyLine(lines[p.instructions[j].lineNumber - 1]) == Code(p.instructions[j].line)
              && !p.instructions[j].assembled && p.instructions[j].length == 0
    ensures forall i, j :: 0 <= i < j < |p.instructions| ==>
              p.instructions[i].lineNumber < p.instructions[j].lineNumber
    ensures forall name :: name in p.labels ==> p.labels[name] <= |p.instructions|
  {
    var kinds := Kinds(lines);
    InstructionCount(kinds);
    CountCodeBound(kinds);
    LabelsInRange(kinds);
    InstructionsFromLines(kinds);
    Build(kinds)
  }

  /** The number of instruction lines. */
  function CountCode(kinds: seq<LineKind>): nat
    decreases |kinds|
  {
    if kinds == [] then 0
    else CountCode(kinds[..|kinds| - 1]) + (if kinds[|kinds| - 1].Code? then 1 else 0)
  }

  /** The first pass as the source writes it: one loop over the lines with a
      running line counter. */
  method ReadLinesLoop(lines: seq<string>) returns (instructions: seq<Instruction>, labels: map<string, nat>)
    ensures Program(instructions, labels) == ReadLines(lines)
  {
    instructions := [];
    labels := map[];
    var lineNumber: nat := 1;
    var k := 0;
    ghost var kinds := Kinds(lines);
    while k < |lines|
      invariant 0 <= k <= |lines|
      invariant lineNumber == k + 1
      invariant Program(instructions, labels) == Build(kinds[..k])
    {
      var line := lines[k];
      var instruction := Instruction(lineNumber, [], false, 0, []);
      lineNumber := lineNumber + 1;
      assert kinds[..k + 1][..k] == kinds[..k];
      k := k + 1;
      match ClassifyLine(line)
      case Blank =>
      case Label(name) =>
        labels := labels[name := |instructions|];
      case Code(text) =>
        instructions := instructions + [instruction.(line := text)];
    }
    assert kinds[..|lines|] == kinds;
  }

  // ---------------------------------------------------------------------
  // Lemmas about one line
  // ---------------------------------------------------------------------

  lemma {:induction false} CommentStartAt(s: string, p: nat)
    requires p <= |s| && ';' !in s[..p]
    requires p == |s| || s[p] == ';'
    ensures CommentStart(s) == p
    decreases p
  {
    if p > 0 {
      assert s[0] == s[..p][0];
      assert s[1..][..p - 1] == s[..p][1..];
      CommentStartAt(s[1..], p - 1);
    }
  }

  /** Everything from the first `;` on is ignored. */
  lemma CommentIgnored(pre: string, rest: string)
    requires ';' !in pre
    ensures ClassifyLine(pre + [';'] + rest) == ClassifyLine(pre)
  {
    var raw := pre + [';'] + rest;
    assert raw[..|pre|] == pre;
    CommentStartAt(raw, |pre|);
    assert pre[..|pre|] == pre;
    CommentStartAt(pre, |pre|);
    if pre == [] {
      assert AllSpace(pre);
    }
  }

  /** `:name` binds `name` exactly as written: a label is neither
      lower-cased nor stripped of commas, unlike instruction text. */
  lemma LabelKeepsSpelling(name: string)
    requires name != [] && ';' !in name && !IsSpace(name[|name| - 1])
    ensures ClassifyLine([':'] + name) == Label(name)
  {
    var raw := [':'] + name;
    assert raw[..|raw|] == raw;
    CommentStartAt(raw, |raw|);
    assert LeadingSpaces(raw) == 0;
    assert TrailingSpaces(raw) == 0;
    assert Trim(raw) == raw;
  }

  /** A lone `:` is not a label: it becomes an instruction. */
  lemma LoneColonIsCode()
    ensures ClassifyLine(":") == Code(":")
  {
    assert CommentStart(":") == 1;
    assert Trim(":") == ":" by {
      assert LeadingSpaces(":") == 0 && TrailingSpaces(":") == 0;
    }
    assert Collapse(":") == ":";
    assert RemoveCommas(":") == ":";
  }

  /** A line of nothing but a comma becomes an instruction with empty text. */
  lemma CommaLineIsEmptyCode()
    ensures ClassifyLine(",") == Code("")
  {
    assert CommentStart(",") == 1;
    assert Trim(",") == "," by {
      assert LeadingSpaces(",") == 0 && TrailingSpaces(",") == 0;
    }
    assert Collapse(",") == ",";
    assert RemoveCommas(",") == "";
  }

  // ---------------------------------------------------------------------
  // Lemmas about the whole pass
  // ---------------------------------------------------------------------

  lemma {:induction false} CountCodeBound(kinds: seq<LineKind>)
    ensures CountCode(kinds) <= |kinds|
    decreases |kinds|
  {
    if kinds != [] {
      CountCodeBound(kinds[..|kinds| - 1]);
    }
  }

  lemma PrefixOfPrefix(kinds: seq<LineKind>, n: nat)
    requires n < |kinds|
    ensures kinds[..|kinds| - 1][..n] == kinds[..n]
  {
  }

  /** One instruction per instruction line, and no other. */
  lemma {:induction false} InstructionCount(kinds: seq<LineKind>)
    ensures |Build(kinds).instructions| == CountCode(kinds)
    decreases |kinds|
  {
    if kinds != [] {
      InstructionCount(kinds[..|kinds| - 1]);
    }
  }

  /** Every label is bound to a position between 0 and the number of
      instructions, both included. */
  lemma {:induction false} LabelsInRange(kinds: seq<LineKind>)
    ensures forall name :: name in Build(kinds).labels ==>
              Build(kinds).labels[name] <= |Build(kinds).instructions|
    decreases |kinds|
  {
    if kinds != [] {
      LabelsInRange(kinds[..|kinds| - 1]);
    }
  }

  /** Each instruction comes from the line its line number names, with that
      line's normalised text, unassembled and of length 0. */
  ghost predicate FromLines(kinds: seq<LineKind>, ins: seq<Instruction>) {
    forall j :: 0 <= j < |ins| ==>
      && 1 <= ins[j].lineNumber <= |kinds|
      && kinds[ins[j].lineNumber - 1] == Code(ins[j].line)
      && !ins[j].assembled && ins[j].length == 0
  }

  /** Line numbers strictly increase along the sequence. */
  ghost predicate Increasing(ins: seq<Instruction>) {
    forall i, j :: 0 <= i < j < |ins| ==> ins[i].lineNumber < ins[j].lineNumber
  }

  /** The instructions keep the order of their lines, and each one is the
      text of the instruction line it names. */
  lemma {:induction false} InstructionsFromLines(kinds: seq<LineKind>)
    ensures FromLines(kinds, Build(kinds).instructions)
    ensures Increasing(Build(kinds).instructions)
    decreases |kinds|
  {
    if kinds != [] {
      var init := kinds[..|kinds| - 1];
      var p := Build(init);
      var kind := kinds[|kinds| - 1];
      InstructionsFromLines(init);
      assert FromLines(kinds, p.instructions) by {
        forall j | 0 <= j < |p.instructions|
          ensures kinds[p.instructions[j].lineNumber - 1] == init[p.instructions[j].lineNumber - 1]
        {
        }
      }
      if kind.Code? {
        var ins := p.instructions + [Instruction(|kinds|, kind.text, false, 0, [])];
        assert Build(kinds).instructions == ins;
        assert FromLines(kinds, ins) by {
          forall j | 0 <= j < |ins|
            ensures 1 <= ins[j].lineNumber <= |kinds|
            ensures kinds[ins[j].lineNumber - 1] == Code(ins[j].line)
            ensures !ins[j].assembled && ins[j].length == 0
          {
            if j < |p.instructions| {
              assert ins[j] == p.instructions[j];
            }
          }
        }
        assert Increasing(ins) by {
          forall i, j | 0 <= i < j < |ins|
            ensures ins[i].lineNumber < ins[j].lineNumber
          {
            assert ins[i] == p.instructions[i];
            if j < |p.instructions| {
              assert ins[j] == p.instructions[j];
            }
          }
        }
      } else {
        assert Build(kinds).instructions == p.instructions;
      }
    }
  }

  /** Every instruction line yields an instruction: the one at the position
      given by the number of instruction lines before it. */
  lemma {:induction false} EveryCodeLineEmitted(kinds: seq<LineKind>, n: nat)
    requires n < |kinds| && kinds[n].Code?
    ensures CountCode(kinds[..n]) < |Build(kinds).instructions|
    ensures Build(kinds).instructions[CountCode(kinds[..n])] == Instruction(n + 1, kinds[n].text, false, 0, [])
    decreases |kinds|
  {
    var init := kinds[..|kinds| - 1];
    InstructionCount(kinds[..n]);
    if n == |kinds| - 1 {
      assert init == kinds[..n];
    } else {
      PrefixOfPrefix(kinds, n);
      EveryCodeLineEmitted(init, n);
    }
  }

  /** A name is in the label table exactly when some line defines it. */
  lemma {:induction false} LabelsDefined(kinds: seq<LineKind>, name: string)
    ensures name in Build(kinds).labels <==> Label(name) in kinds
    decreases |kinds|
  {
    if kinds != [] {
      var init := kinds[..|kinds| - 1];
      LabelsDefined(init, name);
      assert kinds == init + [kinds[|kinds| - 1]];
    }
  }

  /** The last definition of a label wins: it binds the name to the number
      of instructions that precede that definition. */
  lemma {:induction false} LastDefinitionWins(kinds: seq<LineKind>, name: string, n: nat)
    requires n < |kinds| && kinds[n] == Label(name)
    requires forall m :: n < m < |kinds| ==> kinds[m] != Label(name)
    ensures name in Build(kinds).labels
    ensures Build(kinds).labels[name] == CountCode(kinds[..n])
    decreases |kinds|
  {
    var init := kinds[..|kinds| - 1];
    if n == |kinds| - 1 {
      assert init == kinds[..n];
      InstructionCount(init);
    } else {
      PrefixOfPrefix(kinds, n);
      LastDefinitionWins(init, name, n);
    }
  }

  /** No word of any instruction holds an upper-case letter or a comma, so
      a label whose name holds one can never be written as an operand. */
  lemma InstructionWordsNormal(lines: seq<string>)
    ensures forall j, k :: (0 <= j < |ReadLines(lines).instructions| &&
              0 <= k < |Tokens(ReadLines(lines).instructions[j].line)|) ==>
              IsNormal(Tokens(ReadLines(lines).instructions[j].line)[k])
  {
    var ins := ReadLines(lines).instructions;
    InstructionsFromLines(Kinds(lines));
    forall j | 0 <= j < |ins|
      ensures forall k :: 0 <= k < |Tokens(ins[j].line)| ==> IsNormal(Tokens(ins[j].line)[k])
    {
      var raw := lines[ins[j].lineNumber - 1];
      ClassifyLineShape(raw);
      NormalTextNormalWords(ins[j].line);
    }
  }

  lemma NormalTextNormalWords(text: string)
    requires IsNormal(text)
    ensures forall k :: 0 <= k < |Tokens(text)| ==> IsNormal(Tokens(text)[k])
  {
    var ws := Tokens(text);
    forall k | 0 <= k < |ws|
      ensures IsNormal(ws[k])
    {
      ConcatMember(ws, k);
      NonSpaceNormal(text);
    }
  }

  lemma ConcatMember(ws: seq<string>, k: nat)
    requires k < |ws|
    ensures forall i :: 0 <= i < |ws[k]| ==> ws[k][i] in Concat(ws)
  {
    if k > 0 {
      ConcatMember(ws[1..], k - 1);
    }
  }

  lemma NonSpaceNormal(s: string)
    requires IsNormal(s)
    ensures forall c :: c in NonSpace(s) ==> c != ',' && !IsUpper(c)
  {
    if s != [] {
      NonSpaceNormal(s[1..]);
    }
  }
}

=== FILE: text.dfy ===
/**
 The character-level text transforms the assembler applies to each source
 line before it looks at it: trimming, collapsing whitespace runs, removing
 commas, lower-casing, and splitting into whitespace-separated words.

 The assembler does these with `std::regex_replace`, `std::remove`,
 `::tolower` and stream extraction; here each one is an explicit recursive
 function over `seq<char>`, and the lemmas relate them all to one reference
 notion, the word sequence `Tokens`.
 */
module Text {

  /** Whitespace as the "C" locale's `isspace` classifies it (space, tab,
      line feed, vertical tab, form feed, carriage return); both `\s` in the
      regular expressions and whitespace-skipping stream extraction use it. */
  predicate IsSpace(c: char) {
    c == ' ' || '\t' <= c <= '\r'
  }

  predicate IsUpper(c: char) {
    'A' <= c <= 'Z'
  }

  predicate NoSpace(s: string) {
    forall i :: 0 <= i < |s| ==> !IsSpace(s[i])
  }

  predicate AllSpace(s: string) {
    forall i :: 0 <= i < |s| ==> IsSpace(s[i])
  }

  /** No two neighbouring characters are both whitespace. */
  predicate NoDoubleSpace(s: string) {
    forall i :: 0 <= i < |s| - 1 ==> !(IsSpace(s[i]) && IsSpace(s[i + 1]))
  }

  /** Text as the assembler hands it to the encoder: no comma and no
      upper-case ASCII letter. */
  predicate IsNormal(s: string) {
    forall i :: 0 <= i < |s| ==> s[i] != ',' && !IsUpper(s[i])
  }

  /** `::tolower` in the "C" locale: only 'A'..'Z' change. */
  function ToLower(c: char): (d: char)
    ensures !IsUpper(d)
    ensures !IsUpper(c) ==> d == c
    ensures IsUpper(c) ==> 'a' <= d <= 'z' && d as int - 'a' as int == c as int - 'A' as int
    ensures IsSpace(d) == IsSpace(c) && (d == ',') == (c == ',')
  {
    if IsUpper(c) then (c as int + 32) as char else c
  }

  function Lower(s: string): (t: string)
    ensures |t| == |s|
    ensures forall i :: 0 <= i < |s| ==> t[i] == ToLower(s[i])
  {
    if s == [] then [] else [ToLower(s[0])] + Lower(s[1..])
  }

  /** The length of the whitespace run `s` starts with. */
  function LeadingSpaces(s: string): (n: nat)
    ensures n <= |s|
    ensures AllSpace(s[..n])
    ensures n == |s| || !IsSpace(s[n])
  {
    if s == [] || !IsSpace(s[0]) then 0 else 1 + LeadingSpaces(s[1..])
  }

  /** The length of the whitespace run `s` ends with. */
  function TrailingSpaces(s: string): (n: nat)
    ensures n <= |s|
    ensures AllSpace(s[|s| - n..])
    ensures n == |s| || !IsSpace(s[|s| - n - 1])
  {
    if s == [] || !IsSpace(s[|s| - 1]) then 0 else 1 + TrailingSpaces(s[..|s| - 1])
  }

  /** The regular expression `^\s+|\s+$` replaced by nothing. */
  function Trim(s: string): (t: string)
    ensures t == [] || (!IsSpace(t[0]) && !IsSpace(t[|t| - 1]))
    ensures t == [] <==> AllSpace(s)
  {
    var i := LeadingSpaces(s);
    var rest := s[i..];
    var j := |rest| - TrailingSpaces(rest);
    TrimEmpty(s, i, j);
    rest[..j]
  }

  /** The regular expression `\s{2,}` replaced by a single space: a run of
      two or more whitespace characters becomes `' '`, while a single
      whitespace character (a lone tab, say) is kept as it is. */
  function Collapse(s: string): (t: string)
    ensures s != [] ==> t != [] && IsSpace(t[0]) == IsSpace(s[0])
    ensures NoDoubleSpace(t)
    ensures |t| <= |s|
    decreases |s|
  {
    if s == [] then []
    else if IsSpace(s[0]) then
      var n := LeadingSpaces(s);
      var rest := Collapse(s[n..]);
      assert rest != [] ==> !IsSpace(rest[0]);
      (if n >= 2 then [' '] else [s[0]]) + rest
    else
      [s[0]] + Collapse(s[1..])
  }

  /** The first character of the collapsed text: a leading run of two or
      more whitespace characters becomes `' '`, and anything else (a single
      whitespace character included) is kept as it is. */
  lemma CollapseHead(s: string)
    ensures LeadingSpaces(s) >= 2 ==> Collapse(s)[0] == ' '
    ensures s != [] && LeadingSpaces(s) < 2 ==> Collapse(s)[0] == s[0]
  {
  }

  /** `std::remove` of every `','` followed by `erase`. */
  function RemoveCommas(s: string): (t: string)
    ensures ',' !in t
    ensures forall c :: c in t <==> c in s && c != ','
  {
    if s == [] then []
    else if s[0] == ',' then
      assert s == [s[0]] + s[1..];
      RemoveCommas(s[1..])
    else
      assert s == [s[0]] + s[1..];
      [s[0]] + RemoveCommas(s[1..])
  }

  /** The instruction text built from a trimmed line: collapse whitespace
      runs, then drop commas, then lower-case. */
  function Normalize(t: string): (u: string)
    ensures IsNormal(u)
  {
    Lower(RemoveCommas(Collapse(t)))
  }

  // ---------------------------------------------------------------------
  // Words
  // ---------------------------------------------------------------------

  function Flush(cur: string): seq<string> {
    if cur == [] then [] else [cur]
  }

  /** Scans `s` with `cur` holding the word read so far. */
  function Split(s: string, cur: string): seq<string>
    decreases |s|
  {
    if s == [] then Flush(cur)
    else if IsSpace(s[0]) then Flush(cur) + Split(s[1..], [])
    else Split(s[1..], cur + [s[0]])
  }

  function Concat(ws: seq<string>): string {
    if ws == [] then [] else ws[0] + Concat(ws[1..])
  }

  /** `s` without its whitespace characters. */
  function NonSpace(s: string): string {
    if s == [] then []
    else (if IsSpace(s[0]) then [] else [s[0]]) + NonSpace(s[1..])
  }

  /** The words `std::istream_iterator<std::string>` extracts from `s`:
      the maximal runs of non-whitespace characters, in order. */
  function Tokens(s: string): (ws: seq<string>)
    ensures forall k :: 0 <= k < |ws| ==> ws[k] != [] && NoSpace(ws[k])
    ensures Concat(ws) == NonSpace(s)
  {
    SplitShape(s, []);
    Split(s, [])
  }

  /** The words with their commas removed, dropping those that were only
      commas. */
  function StripCommas(ws: seq<string>): (vs: seq<string>)
    ensures forall k :: 0 <= k < |vs| ==> vs[k] != [] && ',' !in vs[k]
    ensures |vs| <= |ws|
  {
    if ws == [] then []
    else
      var w := RemoveCommas(ws[0]);
      (if w == [] then [] else [w]) + StripCommas(ws[1..])
  }

  function LowerAll(ws: seq<string>): (vs: seq<string>)
    ensures |vs| == |ws|
    ensures forall k :: 0 <= k < |ws| ==> vs[k] == Lower(ws[k])
  {
    if ws == [] then [] else [Lower(ws[0])] + LowerAll(ws[1..])
  }

  /** The words of a line as the encoder sees them. */
  function NormalWords(ws: seq<string>): seq<string> {
    LowerAll(StripCommas(ws))
  }

  /** Reference scan of the word extraction, written as a loop the way a
      stream extractor reads characters. */
  method Tokenize(s: string) returns (ws: seq<string>)
    ensures ws == Tokens(s)
  {
    ws := [];
    var cur: string := [];
    var i := 0;
    while i < |s|
      invariant 0 <= i <= |s|
      invariant ws + Split(s[i..], cur) == Split(s, [])
    {
      assert s[i..][1..] == s[i + 1..];
      if IsSpace(s[i]) {
        if cur != [] {
          ws := ws + [cur];
        }
        cur := [];
      } else {
        cur := cur + [s[i]];
      }
      i := i + 1;
    }
    ws := ws + Flush(cur);
  }

  // ---------------------------------------------------------------------
  // Lemmas
  // ---------------------------------------------------------------------

  lemma ConcatAppend(a: seq<string>, b: seq<string>)
    ensures Concat(a + b) == Concat(a) + Concat(b)
  {
    if a == [] {
      assert a + b == b;
    } else {
      assert (a + b)[1..] == a[1..] + b;
      ConcatAppend(a[1..], b);
    }
  }

  lemma SplitShape(s: string, cur: string)
    requires NoSpace(cur)
    ensures forall k :: 0 <= k < |Split(s, cur)| ==> Split(s, cur)[k] != [] && NoSpace(Split(s, cur)[k])
    ensures Concat(Split(s, cur)) == cur + NonSpace(s)
  {
    SplitWords(s, cur);
    SplitConcat(s, cur);
  }

  /** Every word the scan produces is non-empty and holds no whitespace. */
  lemma {:induction false} SplitWords(s: string, cur: string)
    requires NoSpace(cur)
    ensures forall k :: 0 <= k < |Split(s, cur)| ==> Split(s, cur)[k] != [] && NoSpace(Split(s, cur)[k])
    decreases |s|
  {
    if s == [] {
    } else if IsSpace(s[0]) {
      SplitWords(s[1..], []);
      var a := Flush(cur);
      var b := Split(s[1..], []);
      assert Split(s, cur) == a + b;
      assert forall k :: 0 <= k < |a + b| ==> (a + b)[k] == if k < |a| then a[k] else b[k - |a|];
    } else {
      SplitWords(s[1..], cur + [s[0]]);
    }
  }

  /** The scan loses no character but whitespace. */
  lemma {:induction false} SplitConcat(s: string, cur: string)
    ensures Concat(Split(s, cur)) == cur + NonSpace(s)
    decreases |s|
  {
    if s == [] {
    } else if IsSpace(s[0]) {
      SplitConcat(s[1..], []);
      ConcatAppend(Flush(cur), Split(s[1..], []));
      assert Concat(Flush(cur)) == cur;
      assert NonSpace(s) == [] + NonSpace(s[1..]);
    } else {
      SplitConcat(s[1..], cur + [s[0]]);
      assert NonSpace(s) == [s[0]] + NonSpace(s[1..]);
      AppendAssoc(cur, [s[0]], NonSpace(s[1..]));
    }
  }

  /** Leading whitespace never starts a word. */
  lemma {:induction false} SkipSpaces(s: string, k: nat)
    requires k <= |s| && AllSpace(s[..k])
    ensures Split(s, []) == Split(s[k..], [])
    decreases k
  {
    if k > 0 {
      assert IsSpace(s[..k][0]);
      assert s[1..][..k - 1] == s[1..k];
      SkipSpaces(s[1..], k - 1);
      assert s[1..][k - 1..] == s[k..];
    }
  }

  /** Trailing whitespace never adds a word. */
  lemma {:induction false} DropTrailingSpaces(x: string, sp: string, cur: string)
    requires AllSpace(sp)
    ensures Split(x + sp, cur) == Split(x, cur)
    decreases |x|
  {
    if x == [] {
      assert x + sp == sp;
      if sp != [] {
        SkipSpaces(sp[1..], |sp| - 1);
      }
    } else {
      assert (x + sp)[1..] == x[1..] + sp;
      DropTrailingSpaces(x[1..], sp, if IsSpace(x[0]) then [] else cur + [x[0]]);
    }
  }

  /** Trimming does not change the words. */
  lemma TrimWords(s: string)
    ensures Tokens(Trim(s)) == Tokens(s)
  {
    var i := LeadingSpaces(s);
    var rest := s[i..];
    var j := |rest| - TrailingSpaces(rest);
    SkipSpaces(s, i);
    assert rest == rest[..j] + rest[j..];
    DropTrailingSpaces(rest[..j], rest[j..], []);
  }

  lemma TrimEmpty(s: string, i: nat, j: nat)
    requires i == LeadingSpaces(s)
    requires j == |s[i..]| - TrailingSpaces(s[i..])
    ensures j == 0 <==> AllSpace(s)
  {
    var rest := s[i..];
    if j == 0 {
      assert AllSpace(s) by {
        assert s == s[..i] + rest;
        assert rest == rest[j..];
      }
    } else {
      assert !AllSpace(s) by {
        assert s[i] == rest[0] && !IsSpace(rest[0]);
      }
    }
  }

  /** Trimming removes nothing but the leading and the trailing whitespace:
      what is left is one stretch of `s` with only whitespace before and
      after it. */
  lemma TrimKeepsMiddle(s: string)
    ensures var t := Trim(s);
      exists i :: 0 <= i <= |s| - |t| && s[i..i + |t|] == t && AllSpace(s[..i]) && AllSpace(s[i + |t|..])
  {
    var i := LeadingSpaces(s);
    var j := |s[i..]| - TrailingSpaces(s[i..]);
    TrimMiddle(s, i, j);
  }

  lemma TrimMiddle(s: string, i: nat, j: nat)
    requires i == LeadingSpaces(s)
    requires j == |s[i..]| - TrailingSpaces(s[i..])
    ensures i + j <= |s| && s[i..][..j] == s[i..i + j]
    ensures AllSpace(s[..i]) && AllSpace(s[i + j..])
  {
    TrailingPart(s[i..], j);
    assert s[i..][j..] == s[i + j..];
  }

  lemma TrailingPart(rest: string, j: nat)
    requires j == |rest| - TrailingSpaces(rest)
    ensures AllSpace(rest[j..])
  {
  }

  /** Collapsing whitespace runs does not change the words. */
  lemma {:induction false} CollapseWords(s: string, cur: string)
    ensures Split(Collapse(s), cur) == Split(s, cur)
    decreases |s|
  {
    if s == [] {
    } else if IsSpace(s[0]) {
      var n := LeadingSpaces(s);
      CollapseWords(s[n..], []);
      CollapseRun(s, cur, n);
    } else {
      CollapseWords(s[1..], cur + [s[0]]);
    }
  }

  /** A whitespace run and what `Collapse` turns it into end the current
      word alike. */
  lemma CollapseRun(s: string, cur: string, n: nat)
    requires s != [] && IsSpace(s[0]) && n == LeadingSpaces(s)
    requires Split(Collapse(s[n..]), []) == Split(s[n..], [])
    ensures Split(Collapse(s), cur) == Split(s, cur)
  {
    CollapsedRun(s, cur, n);
    RunTail(s, n);
    assert Split(s, cur) == Flush(cur) + Split(s[1..], []);
  }

  lemma CollapsedRun(s: string, cur: string, n: nat)
    requires s != [] && IsSpace(s[0]) && n == LeadingSpaces(s)
    ensures Split(Collapse(s), cur) == Flush(cur) + Split(Collapse(s[n..]), [])
  {
    var x := Collapse(s[n..]);
    var c: string := if n >= 2 then [' '] else [s[0]];
    assert Collapse(s) == c + x;
    assert (c + x)[0] == c[0] && (c + x)[1..] == x;
  }

  lemma RunTail(s: string, n: nat)
    requires s != [] && IsSpace(s[0]) && n == LeadingSpaces(s)
    ensures Split(s[1..], []) == Split(s[n..], [])
  {
    assert s[1..][..n - 1] == s[..n][1..];
    SkipSpaces(s[1..], n - 1);
    assert s[1..][n - 1..] == s[n..];
  }

  lemma RemoveCommasAppend(a: string, b: string)
    ensures RemoveCommas(a + b) == RemoveCommas(a) + RemoveCommas(b)
  {
    if a == [] {
      assert a + b == b;
    } else {
      assert (a + b)[0] == a[0];
      assert (a + b)[1..] == a[1..] + b;
      RemoveCommasAppend(a[1..], b);
      if a[0] == ',' {
        calc {
          RemoveCommas(a + b);
          RemoveCommas(a[1..] + b);
          RemoveCommas(a[1..]) + RemoveCommas(b);
        }
      } else {
        calc {
          RemoveCommas(a + b);
          [a[0]] + RemoveCommas(a[1..] + b);
          [a[0]] + RemoveCommas(a[1..]) + RemoveCommas(b);
        }
      }
    }
  }

  lemma StripCommasAppend(a: seq<string>, b: seq<string>)
    ensures StripCommas(a + b) == StripCommas(a) + StripCommas(b)
  {
    if a == [] {
      assert a + b == b;
    } else {
      assert (a + b)[0] == a[0];
      assert (a + b)[1..] == a[1..] + b;
      StripCommasAppend(a[1..], b);
      var w := RemoveCommas(a[0]);
      calc {
        StripCommas(a + b);
        (if w == [] then [] else [w]) + StripCommas(a[1..] + b);
        (if w == [] then [] else [w]) + StripCommas(a[1..]) + StripCommas(b);
      }
    }
  }

  lemma StripCommasFlush(cur: string)
    ensures StripCommas(Flush(cur)) == Flush(RemoveCommas(cur))
  {
    if cur != [] {
      assert StripCommas([cur]) == (if RemoveCommas(cur) == [] then [] else [RemoveCommas(cur)]) + StripCommas([]);
    }
  }

  /** Removing commas removes them from every word and drops the words that
      held nothing else. */
  lemma {:induction false} RemoveCommasWords(s: string, cur: string)
    ensures Split(RemoveCommas(s), RemoveCommas(cur)) == StripCommas(Split(s, cur))
    decreases |s|
  {
    if s == [] {
      StripCommasFlush(cur);
    } else if IsSpace(s[0]) {
      RemoveCommasWords(s[1..], []);
      RemoveCommasAtSpace(s, cur);
    } else {
      RemoveCommasWords(s[1..], cur + [s[0]]);
      if s[0] == ',' {
        RemoveCommasAtComma(s, cur);
      } else {
        RemoveCommasInWord(s, cur);
      }
    }
  }

  lemma RemoveCommasAtSpace(s: string, cur: string)
    requires s != [] && IsSpace(s[0])
    requires Split(RemoveCommas(s[1..]), []) == StripCommas(Split(s[1..], []))
    ensures Split(RemoveCommas(s), RemoveCommas(cur)) == StripCommas(Split(s, cur))
  {
    var x := RemoveCommas(s[1..]);
    assert RemoveCommas(s) == [s[0]] + x;
    assert ([s[0]] + x)[1..] == x;
    assert RemoveCommas([]) == [];
    StripCommasAppend(Flush(cur), Split(s[1..], []));
    StripCommasFlush(cur);
  }

  lemma RemoveCommasAtComma(s: string, cur: string)
    requires s != [] && s[0] == ','
    requires Split(RemoveCommas(s[1..]), RemoveCommas(cur + [s[0]])) == StripCommas(Split(s[1..], cur + [s[0]]))
    ensures Split(RemoveCommas(s), RemoveCommas(cur)) == StripCommas(Split(s, cur))
  {
    RemoveCommasAppend(cur, [s[0]]);
    assert RemoveCommas([s[0]]) == [];
    assert RemoveCommas(cur + [s[0]]) == RemoveCommas(cur);
    assert Split(s, cur) == Split(s[1..], cur + [s[0]]);
  }

  lemma RemoveCommasInWord(s: string, cur: string)
    requires s != [] && !IsSpace(s[0]) && s[0] != ','
    requires Split(RemoveCommas(s[1..]), RemoveCommas(cur + [s[0]])) == StripCommas(Split(s[1..], cur + [s[0]]))
    ensures Split(RemoveCommas(s), RemoveCommas(cur)) == StripCommas(Split(s, cur))
  {
    var x := RemoveCommas(s[1..]);
    RemoveCommasAppend(cur, [s[0]]);
    assert RemoveCommas([s[0]]) == [s[0]];
    assert RemoveCommas(s) == [s[0]] + x;
    assert ([s[0]] + x)[1..] == x;
    assert ([s[0]] + x)[0] == s[0];
    assert Split([s[0]] + x, RemoveCommas(cur)) == Split(x, RemoveCommas(cur) + [s[0]]);
    assert Split(s, cur) == Split(s[1..], cur + [s[0]]);
  }

  lemma LowerAllAppend(a: seq<string>, b: seq<string>)
    ensures LowerAll(a + b) == LowerAll(a) + LowerAll(b)
  {
  }

  /** Lower-casing lower-cases every word and changes nothing else. */
  lemma {:induction false} LowerWords(s: string, cur: string)
    ensures Split(Lower(s), Lower(cur)) == LowerAll(Split(s, cur))
    decreases |s|
  {
    if s == [] {
    } else {
      assert Lower(s)[1..] == Lower(s[1..]);
      if IsSpace(s[0]) {
        LowerWords(s[1..], []);
        LowerAllAppend(Flush(cur), Split(s[1..], []));
      } else {
        assert Lower(cur + [s[0]]) == Lower(cur) + [ToLower(s[0])];
        LowerWords(s[1..], cur + [s[0]]);
      }
    }
  }

  /** The words of the instruction text are the words of the trimmed line
      with commas removed, comma-only words dropped, and lower-cased. */
  lemma NormalizeWords(t: string)
    ensures Tokens(Normalize(t)) == NormalWords(Tokens(t))
  {
    var c := Collapse(t);
    var r := RemoveCommas(c);
    LowerWords(r, []);
    assert Lower([]) == [];
    RemoveCommasWords(c, []);
    assert RemoveCommas([]) == [];
    CollapseWords(t, []);
  }

  /** A whitespace character separates words: the words on either side of
      it are the words of each side. */
  lemma TokensAtSpace(x: string, c: char, y: string)
    requires IsSpace(c)
    ensures Tokens(x + [c] + y) == Tokens(x) + Tokens(y)
  {
    SplitAtSpace(x, c, y, []);
  }

  lemma {:induction false} SplitAtSpace(x: string, c: char, y: string, cur: string)
    requires IsSpace(c)
    ensures Split(x + [c] + y, cur) == Split(x, cur) + Split(y, [])
    decreases |x|
  {
    if x == [] {
      assert x + [c] + y == [c] + y;
      assert ([c] + y)[1..] == y;
    } else {
      assert (x + [c] + y)[0] == x[0];
      assert (x + [c] + y)[1..] == x[1..] + [c] + y;
      if IsSpace(x[0]) {
        SplitAtSpace(x[1..], c, y, []);
      } else {
        SplitAtSpace(x[1..], c, y, cur + [x[0]]);
      }
    }
  }

  /** A non-empty stretch without whitespace is one word. */
  lemma TokensOfWord(w: string)
    requires w != [] && NoSpace(w)
    ensures Tokens(w) == [w]
  {
    SplitWord(w, []);
    assert [] + w == w;
  }

  lemma {:induction false} SplitWord(w: string, cur: string)
    requires NoSpace(w) && cur + w != []
    ensures Split(w, cur) == [cur + w]
    decreases |w|
  {
    if w == [] {
      assert cur + w == cur;
    } else {
      assert !IsSpace(w[0]);
      SplitWord(w[1..], cur + [w[0]]);
      assert cur + [w[0]] + w[1..] == cur + w;
    }
  }

  /** A line without words: empty, or nothing but whitespace. */
  lemma TokensOfSpace(s: string)
    requires AllSpace(s)
    ensures Tokens(s) == []
  {
    SkipSpaces(s, |s|);
    assert s[..|s|] == s;
    assert s[|s|..] == [];
  }

  /** Collapsing works run by run: a cut after a non-whitespace character
      never splits a run, so the two sides collapse independently. */
  lemma {:induction false} CollapseAppend(x: string, y: string)
    requires x == [] || !IsSpace(x[|x| - 1])
    ensures Collapse(x + y) == Collapse(x) + Collapse(y)
    decreases |x|
  {
    if x == [] {
      assert x + y == y;
    } else if !IsSpace(x[0]) {
      CollapseAppend(x[1..], y);
      CollapseAppendWord(x, y);
    } else {
      var n := LeadingSpaces(x);
      assert n < |x|;
      CollapseAppend(x[n..], y);
      CollapseAppendRun(x, y);
    }
  }

  lemma CollapseAppendWord(x: string, y: string)
    requires x != [] && !IsSpace(x[0])
    requires Collapse(x[1..] + y) == Collapse(x[1..]) + Collapse(y)
    ensures Collapse(x + y) == Collapse(x) + Collapse(y)
  {
    ConsAppend(x, y);
    CollapseCons(x[0], x[1..]);
    CollapseCons(x[0], x[1..] + y);
    AppendAssoc([x[0]], Collapse(x[1..]), Collapse(y));
  }

  /** Taking a sequence apart at its first element, alone and followed by
      another sequence. */
  lemma ConsAppend(x: string, y: string)
    requires x != []
    ensures x == [x[0]] + x[1..]
    ensures x + y == [x[0]] + (x[1..] + y)
  {
  }

  lemma AppendAssoc(a: string, b: string, c: string)
    ensures a + (b + c) == (a + b) + c
  {
  }

  /** Dropping a prefix that lies inside the first of two sequences. */
  lemma DropAppend(x: string, y: string, n: nat)
    requires n <= |x|
    ensures (x + y)[n..] == x[n..] + y
  {
  }

  /** A non-whitespace character is copied. */
  lemma CollapseCons(a: char, z: string)
    requires !IsSpace(a)
    ensures Collapse([a] + z) == [a] + Collapse(z)
  {
    var s := [a] + z;
    assert s[0] == a;
    assert s[1..] == z;
  }

  lemma CollapseAppendRun(x: string, y: string)
    requires x != [] && IsSpace(x[0]) && !IsSpace(x[|x| - 1])
    requires LeadingSpaces(x) < |x|
    requires Collapse(x[LeadingSpaces(x)..] + y) == Collapse(x[LeadingSpaces(x)..]) + Collapse(y)
    ensures Collapse(x + y) == Collapse(x) + Collapse(y)
  {
    var n := LeadingSpaces(x);
    LeadingSpacesAppend(x, y);
    DropAppend(x, y, n);
    DropAppend(x, y, 0);
    CollapseRunStep(x + y, n);
    CollapseRunStep(x, n);
    AppendAssoc(if n >= 2 then [' '] else [x[0]], Collapse(x[n..]), Collapse(y));
  }

  /** A leading run of `n` whitespace characters becomes one character. */
  lemma CollapseRunStep(s: string, n: nat)
    requires s != [] && IsSpace(s[0]) && n == LeadingSpaces(s)
    ensures Collapse(s) == (if n >= 2 then [' '] else [s[0]]) + Collapse(s[n..])
  {
  }

  lemma {:induction false} LeadingSpacesAppend(x: string, y: string)
    requires x != [] && !IsSpace(x[|x| - 1])
    ensures LeadingSpaces(x + y) == LeadingSpaces(x)
    decreases |x|
  {
    assert (x + y)[0] == x[0];
    if IsSpace(x[0]) {
      assert (x + y)[1..] == x[1..] + y;
      LeadingSpacesAppend(x[1..], y);
    }
  }

  /** A single whitespace character between words is kept as it is: a lone
      tab stays a tab. */
  lemma LoneSpaceKept(x: string, c: char, y: string)
    requires x != [] && !IsSpace(x[|x| - 1]) && IsSpace(c)
    requires y != [] && !IsSpace(y[0])
    ensures Collapse(x + [c] + y) == Collapse(x) + [c] + Collapse(y)
  {
    AppendAssoc(x, [c], y);
    CollapseAppend(x, [c] + y);
    CollapseLone(c, y);
    AppendAssoc(Collapse(x), [c], Collapse(y));
  }

  lemma CollapseLone(c: char, y: string)
    requires IsSpace(c) && y != [] && !IsSpace(y[0])
    ensures Collapse([c] + y) == [c] + Collapse(y)
  {
    var s := [c] + y;
    RunLength([c], y);
    assert s[1..] == y;
    assert s[0] == c;
  }

  /** A run of two or more whitespace characters between words becomes one
      space. */
  lemma RunBecomesSpace(x: string, sp: string, y: string)
    requires x != [] && !IsSpace(x[|x| - 1]) && |sp| >= 2 && AllSpace(sp)
    requires y != [] && !IsSpace(y[0])
    ensures Collapse(x + sp + y) == Collapse(x) + [' '] + Collapse(y)
  {
    AppendAssoc(x, sp, y);
    CollapseAppend(x, sp + y);
    RunLength(sp, y);
    assert sp + y != [] && IsSpace((sp + y)[0]);
    DropAppend(sp, y, |sp|);
    assert sp[|sp|..] + y == y;
    CollapseRunStep(sp + y, |sp|);
    AppendAssoc(Collapse(x), [' '], Collapse(y));
  }

  lemma {:induction false} RunLength(sp: string, y: string)
    requires AllSpace(sp) && (y == [] || !IsSpace(y[0]))
    ensures LeadingSpaces(sp + y) == |sp|
    decreases |sp|
  {
    if sp == [] {
      assert sp + y == y;
    } else {
      assert (sp + y)[0] == sp[0];
      assert (sp + y)[1..] == sp[1..] + y;
      RunLength(sp[1..], y);
    }
  }

  /** `std::remove` keeps a character exactly when it is not a comma. */
  lemma RemoveCommasChar(c: char)
    ensures RemoveCommas([c]) == if c == ',' then [] else [c]
  {
    assert [c][1..] == [];
  }

  lemma CollapseExample()
    ensures Collapse("a , b") == "a , b"
  {
    assert Collapse("b") == "b";
    assert LeadingSpaces(" b") == 1;
    assert Collapse(" b") == " b";
    assert Collapse(", b") == ", b";
    assert LeadingSpaces(" , b") == 1;
    assert Collapse(" , b") == " , b";
  }

  lemma RemoveCommasExample()
    ensures RemoveCommas("a , b") == "a  b"
  {
    assert RemoveCommas("b") == "b";
    assert RemoveCommas(" b") == " b";
    assert RemoveCommas(", b") == " b";
    assert RemoveCommas(" , b") == "  b";
  }

  /** The instruction text may still hold two whitespace characters in a
      row: commas are removed after whitespace runs were collapsed. */
  lemma CommaLeavesDoubleSpace()
    ensures Normalize("a , b") == "a  b"
    ensures !NoDoubleSpace(Normalize("a , b"))
  {
    CollapseExample();
    RemoveCommasExample();
    assert Lower("a  b") == "a  b";
    assert IsSpace("a  b"[1]) && IsSpace("a  b"[2]);
  }
  /** Text without whitespace is left as it is by collapsing. */
  lemma {:induction false} CollapseWord(w: string)
    requires NoSpace(w)
    ensures Collapse(w) == w
    decreases |w|
  {
    if w != [] {
      CollapseWord(w[1..]);
      CollapseCons(w[0], w[1..]);
      assert w == [w[0]] + w[1..];
    }
  }

  /** Text without commas is left as it is by comma removal. */
  lemma {:induction false} RemoveCommasNone(w: string)
    requires ',' !in w
    ensures RemoveCommas(w) == w
    decreases |w|
  {
    if w != [] {
      assert w[0] != ',';
      RemoveCommasNone(w[1..]);
      assert w == [w[0]] + w[1..];
    }
  }

  lemma LowerAppend(a: string, b: string)
    ensures Lower(a + b) == Lower(a) + Lower(b)
  {
  }

  /** A comma with no whitespace beside it is deleted rather than turned
      into a separator, so the two words it stood between become one. */
  lemma CommaJoinsWords(x: string, y: string)
    requires x != [] && NoSpace(x) && ',' !in x
    requires y != [] && NoSpace(y) && ',' !in y
    ensures Tokens(Normalize(x + [','] + y)) == [Lower(x + y)]
  {
    var s := x + [','] + y;
    assert NoSpace(s);
    CollapseWord(s);
    CommaDropped(x, y);
    assert NoSpace(Lower(x + y));
    TokensOfWord(Lower(x + y));
  }

  lemma CommaDropped(x: string, y: string)
    requires ',' !in x && ',' !in y
    ensures RemoveCommas(x + [','] + y) == x + y
  {
    var a := x + [','];
    RemoveCommasAppend(a, y);
    RemoveCommasAppend(x, [',']);
    RemoveCommasChar(',');
    RemoveCommasNone(x);
    assert RemoveCommas(a) == x + [];
    assert x + [] == x;
    RemoveCommasNone(y);
  }

  /** An instruction written `mn x,y`, with no whitespace around the comma,
      has one operand word, `x` and `y` run together, and not two. */
  lemma CommaJoinsOperands(mn: string, x: string, y: string)
    requires mn != [] && NoSpace(mn) && ',' !in mn
    requires x != [] && NoSpace(x) && ',' !in x
    requires y != [] && NoSpace(y) && ',' !in y
    ensures Tokens(Normalize(mn + [' '] + x + [','] + y)) == [Lower(mn), Lower(x + y)]
  {
    var s := x + [','] + y;
    assert mn + [' '] + x + [','] + y == mn + [' '] + s;
    CollapseSpaced(mn, s);
    SpacedCommasDropped(mn, x, y);
    LowerSpaced(mn, x + y);
    assert NoSpace(Lower(mn));
    assert NoSpace(Lower(x + y));
    TokensSpaced(Lower(mn), Lower(x + y));
  }

  lemma CollapseSpaced(a: string, b: string)
    requires a != [] && NoSpace(a) && b != [] && NoSpace(b)
    ensures Collapse(a + [' '] + b) == a + [' '] + b
  {
    CollapseWord(a);
    CollapseWord(b);
    LoneSpaceKept(a, ' ', b);
  }

  lemma SpacedCommasDropped(mn: string, x: string, y: string)
    requires ',' !in mn && ',' !in x && ',' !in y
    ensures RemoveCommas(mn + [' '] + (x + [','] + y)) == mn + [' '] + (x + y)
  {
    var a := mn + [' '];
    RemoveCommasAppend(a, x + [','] + y);
    RemoveCommasNone(a);
    CommaDropped(x, y);
  }

  lemma LowerSpaced(a: string, b: string)
    ensures Lower(a + [' '] + b) == Lower(a) + [' '] + Lower(b)
  {
    LowerAppend(a + [' '], b);
    LowerAppend(a, [' ']);
    assert Lower([' ']) == [' '];
  }

  lemma TokensSpaced(a: string, b: string)
    requires a != [] && NoSpace(a) && b != [] && NoSpace(b)
    ensures Tokens(a + [' '] + b) == [a, b]
  {
    TokensAtSpace(a, ' ', b);
    TokensOfWord(a);
    TokensOfWord(b);
  }
}
